=== FILE: README.md ===
# mink draw-submission core in Dafny

This project models three pieces of mink, a 2D engine written in Rust and driven from Python:

- **The sprite batcher** (`src/graphics/draw.rs`). Every `sprite` call becomes one instance that is filed under the path of its texture.
  - A `DrawBatch` collects the instances of one key during a frame. Once per frame, `write` uploads them to the batch's GPU instance buffer.
  - `Draw::submit` binds the shared quad. It then flushes every batch and issues one instanced draw for each batch that had instances. Finally it runs `Batcher::cleanup`.
  - Cleanup drops the batches whose idle countdown (`LIFETIME = 10` frames) has reached 0.
- **The input edge detector** (`src/input/mod.rs`). It keeps the current and the previous state of every key and mouse button. `tick` copies the current state into the previous one, and the `*_pressed`/`*_released` queries compare the two.
- **Asset path resolution** (`src/assets/mod.rs`). A root directory and a requested path are joined as `root + "/" + path`. A texture keeps the *unresolved* path as its identity, and that identity is the batch key.

Modules, one per file:

- `Common`: options, results, `f32` values as bit patterns, vectors, colours, GPU object handles.
- `Instances`: the packed instance layout, `into_raw`, attachments, and the calls made on a render pass.
- `Batches`: the `BatchState` value, the `NewBatch`/`WithInstance`/`Flush` functions that specify one batch, and the class `DrawBatch`, proved to follow them.
- `Batching`: the `BatchMap` value and its operations (`Insert`, `WithoutDead`, `Submitted`), the frame-by-frame lemmas, and the class `Batcher`.
- `Drawing`: the class `Draw` (`sprite`, `set_camera`, `submit`), the render-pass trace and the lemmas about a frame of `sprite` calls.
- `Input`: the class `Input` and the lemmas about key events within a frame.
- `Assets`: the class `Assets`, path resolution and what a loaded texture, sound or piece of music keeps.

Each class mirrors a Rust struct whose methods update it in place. Each method is proved against a value-level function. For example, `Batcher.Add` ends with `Snapshot() == Insert(old(Snapshot()), ...)`. The properties are proved about those functions.

The GPU instance buffer of a batch is a ghost sequence of 80-byte slots. Its capacity is 80 times its length.

`write` replaces the buffer when the bytes needed exceed the recorded `size` (`src/graphics/draw.rs:134`). That test reads as meant for a grow-only buffer, but `size` is never assigned after construction (`src/graphics/draw.rs:131-141`), so:

- the recorded size stays at its construction value;
- every batch that `Batcher::add` creates starts with one instance, so its recorded size is one record (80 bytes). From then on it allocates a brand-new GPU buffer in every frame in which it draws two or more instances (`Batches.ReallocatesEveryBusyFrame`). For example, 21 sprites sharing one texture reallocate their batch's buffer on every frame;
- a batch that once needed three slots and then needs two gets a new two-slot buffer (`Batches.CapacityCanShrink`);
- what does hold is that the buffer always holds at least the recorded size and at least the bytes just uploaded.

`Draw::submit` visits the batches of a `HashMap`, whose order is unspecified. The model picks the next key by an arbitrary choice. `Submit` returns the order it used as a ghost value, and its trace is stated in terms of that order.

## Model

| member | source | states |
|---|---|---|
| Instances.RawInstanceLayout | src/graphics/draw.rs:18-52 | The instance record is 80 bytes with a per-instance step. Its five `Float32x4` attributes sit at shader locations 2..6 and offsets 0, 16, 32, 48, 64. They tile the record exactly: each starts where the previous one ends, and the last ends at the stride. |
| Instances.IntoRaw | src/graphics/draw.rs:61-67 | The packed matrix is the camera's matrix for this viewport size times the instance's model matrix, and the colour is the instance's. |
| Instances.Attach | src/graphics/draw.rs:76-83 | A pipeline attachment sets that pipeline; a texture attachment sets its bind group at index 0; attaching never draws. |
| Instances.AttachAll | src/graphics/draw.rs:245-247 | Binding a batch's attachments makes one call per attachment, in stored order, each as `Attach` says. |
| Batches.NewBatch | src/graphics/draw.rs:98-124 | A new batch has the given label, attachments and instances. `count` equals the number of instances, lifetime is `LIFETIME` (10), and the recorded size equals the allocated capacity, which is 80 bytes per instance. |
| Batches.WithInstance | src/graphics/draw.rs:126-129 | Adding appends the instance and raises `count` by exactly 1. Every other field is unchanged and well-formedness is preserved. |
| Batches.Flush | src/graphics/draw.rs:131-166 | Flushing returns the previous `count`, then leaves `count` 0 and no pending instances. The label, attachments and recorded `size` are unchanged. Lifetime becomes `LIFETIME` after a frame with instances; otherwise it drops by one and stops at 0. A new buffer is allocated exactly when 80·count exceeds the recorded size, and it is then exactly 80·count bytes; otherwise the buffer keeps its length. The packed instances sit in order at offset 0, and the rest of a kept buffer is untouched. Capacity stays at least the recorded size and at least the bytes uploaded. |
| Batches.CapacityCanShrink | src/graphics/draw.rs:132-141 | Because `size` is never updated, a batch created with one instance that flushes three and then two ends with a 3-slot buffer and then a 2-slot one. Its recorded size stays at 80 throughout. |
| Batches.ReallocatesEveryBusyFrame | src/graphics/draw.rs:131-141 | For a batch created by `add` with one instance, over any sequence of frames, the recorded size stays at 80 bytes. The flush of each frame returns the number of instances drawn that frame, and allocates a new buffer exactly when that number is at least 2. |
| Batches.DrawBatch.constructor | src/graphics/draw.rs:98-124 | The new object's state is `NewBatch` of its arguments, and it is well formed. |
| Batches.DrawBatch.Add | src/graphics/draw.rs:126-129 | The object's new state is `WithInstance` of its old state. |
| Batches.DrawBatch.Write | src/graphics/draw.rs:131-166 | The new state, the returned count and whether a new buffer was created are exactly as `Flush` of the old state says, and the batch stays well formed. |
| Batching.Insert | src/graphics/draw.rs:180-195 | Batcher `add`. An unseen key gets a new batch holding just this instance, with the attachments passed in. A known key gets the instance appended, and the attachments passed in are ignored. The key set grows by at most this key, and no other batch changes. |
| Batching.InsertPreserves | src/graphics/draw.rs:180-195 | `add` keeps every batch well formed and labelled with its own key. It creates no batch at lifetime 0. |
| Batching.WithoutDead | src/graphics/draw.rs:197-208 | Cleanup keeps a key exactly when its batch's lifetime is not 0. Survivors are unchanged, and afterwards no batch is at lifetime 0. |
| Batching.FlushAll | src/graphics/draw.rs:238-239 | Flushing every batch keeps the key set, flushes each batch exactly once, and keeps all of them well formed. |
| Batching.Submitted | src/graphics/draw.rs:235-254 | After one submit (flush all, then clean up once) every batch is well formed and none is at lifetime 0. |
| Batching.SubmitSurvivors | src/graphics/draw.rs:156-160 | A batch survives a submit exactly when it had instances that frame or had more than one idle frame left. A survivor is its flushed self. |
| Batching.IdleCountdown | src/graphics/draw.rs:156-160 | A batch with nothing pending and lifetime L is still present after each of the first L-1 idle frames, with lifetime L-n after n of them. |
| Batching.IdleEviction | src/graphics/draw.rs:197-208 | A batch with nothing pending and lifetime L is gone after L idle frames. |
| Batching.DrawnThenIdle | src/graphics/draw.rs:156-160 | A batch drawn in one frame has lifetime 10 afterwards. It is still present after 9 idle frames, with lifetime 1, and removed by the 10th. |
| Batching.Batcher.constructor | src/graphics/draw.rs:174-178 | A new batcher holds no batches. |
| Batching.Batcher.Add | src/graphics/draw.rs:180-195 | The batcher's contents afterwards are `Insert` of its contents before, and every batch stays well formed and labelled with its key. A batch object it adds is newly allocated. |
| Batching.Batcher.WriteBatch | src/graphics/draw.rs:238-239 | Writing the batch under one key returns its pending count and changes that batch exactly as `Flush` says. The key set and every other batch are unchanged. |
| Batching.Batcher.DeadKeys | src/graphics/draw.rs:198-203 | The collected keys are exactly those whose batch is at lifetime 0. |
| Batching.Batcher.Cleanup | src/graphics/draw.rs:197-208 | Exactly the batches at lifetime 0 are removed, and every other key keeps the very same batch object. No batch object is added, and the contents afterwards are `WithoutDead` of the contents before. |
| Drawing.RecordBatch | src/graphics/draw.rs:241-250 | After a flush that returned 0, nothing is recorded. Otherwise the batch's attachments are bound in stored order, its instance buffer is set in slot 1, and one `draw_indexed(0..6, 0, 0..count)` follows. |
| Drawing.BatchEventsDraws | src/graphics/draw.rs:241-250 | A batch's calls contain one draw, over 6 indices and instances `0..count`, when count is nonzero, and none otherwise. |
| Drawing.TraceDraws | src/graphics/draw.rs:238-251 | A submit issues exactly one draw per batch whose flush returned a nonzero count, in visiting order, each over the quad's 6 indices and instances `0..count`. Batches that returned 0 draw nothing. |
| Drawing.SpriteInstance | src/graphics/draw.rs:278-289 | A sprite's instance uses the camera override in effect at the call if one is set, else the default camera. Its tint is white unless given, its rotation 0 unless given, its scale 1 unless given, and its model matrix uses the position and the texture's size. |
| Drawing.FrameKeys | src/graphics/draw.rs:263-291 | A frame of `sprite` calls, with `set_camera` free to change the override between any two of them, adds exactly the batches for the texture paths it draws. |
| Drawing.FrameInstances | src/graphics/draw.rs:263-291 | After a frame of `sprite` calls, each batch holds the instances it already had, followed by one instance per call with its path, in call order, each built with the camera override in effect at its own call. |
| Drawing.FrameFirstAttachments | src/graphics/draw.rs:271-277 | A batch created during the frame is bound with the pipeline and the texture of the first call with its path. |
| Drawing.OneBatchPerPath | src/graphics/draw.rs:263-291 | On an empty batcher, a frame of `sprite` calls yields one batch per distinct texture path. Each holds the instances of its calls in order, its count equals their number, and it is bound with `[Pipeline, Texture]` of the first such call. |
| Drawing.SamePathSharesBatch | src/graphics/draw.rs:187-188 | Two textures with the same path, drawn when no batch for that path exists yet, land in one batch, with count 2, that keeps the first texture's bind group. The batch key is the texture's path (`src/graphics/draw.rs:273`), which a texture sets to the unresolved path it was loaded with (`src/assets/mod.rs:125`). |
| Drawing.FrameKeepsAttachments | src/graphics/draw.rs:187-188 | A batch that already exists keeps its attachments through any frame of `sprite` calls, so later textures with its path are drawn with the bind group of the texture that created it. |
| Drawing.SubmitBatch | src/graphics/draw.rs:238-251 | One turn of the submit loop flushes the batch under one key as `Flush` says and appends that batch's calls to the trace. |
| Drawing.Draw.constructor | src/graphics/draw.rs:222-233 | A new `Draw` owns a newly allocated batcher with no batches, has no camera override and uses the default camera. |
| Drawing.Draw.SetCamera | src/graphics/draw.rs:259-261 | Setting the camera replaces the override and leaves the batches alone. |
| Drawing.Draw.Sprite | src/graphics/draw.rs:263-291 | The batcher afterwards is `Insert` of the batcher before, under the texture's path, with `[Pipeline, Texture]` and the instance `SpriteInstance` describes for the current override. A batch object it adds is newly allocated. |
| Drawing.Draw.DrawBatches | src/graphics/draw.rs:238-251 | The loop visits every key exactly once, in some order. It records `Trace` of the batches before the loop in that order, and leaves every batch flushed (`FlushAll`) with the key set unchanged. |
| Drawing.Draw.Submit | src/graphics/draw.rs:235-254 | A submit records the quad's vertex and index buffers, then the calls of every batch in visiting order. The batches afterwards are `Submitted` of the batches before: all flushed, then cleaned up once. No batch object is added. |
| Drawing.FirstFrame | src/graphics/draw.rs:222-291 | A new renderer, one `sprite` call and one `submit` compose. The pass binds the quad, the sprite pipeline and the texture, sets the batch's instance buffer, and draws 6 indices for 1 instance. The batch survives with lifetime 10. |
| Input.IsDown | src/input/mod.rs:83-85 | A name never seen reads as not down; a recorded name reads as its stored value. |
| Input.KeyMapAfter | src/input/mod.rs:42-54 | A press records the key as down and a release as up. An unidentified key changes nothing, and no other key changes. |
| Input.UntouchedKey | src/input/mod.rs:42-54 | Events about other keys leave a key's state as it was. |
| Input.LastEventWins | src/input/mod.rs:42-54 | Within a frame only the last event about a key counts: the key is down afterwards exactly when that event was a press. |
| Input.TapWithinOneFrameIsMissed | src/input/mod.rs:87-99 | A key that was up at the last tick and is pressed and released before the next one reads as not down, not pressed and not released. |
| Input.HeldKeyRetapReadsReleased | src/input/mod.rs:42-54 | A key that was down at the last tick and is released, pressed again and released before the next one reads as not down and released. Repeat events are not filtered. |
| Input.Input.constructor | src/input/mod.rs:25-34 | A fresh tracker has empty key and button maps, and zero cursor position and scroll. |
| Input.Input.Tick | src/input/mod.rs:36-40 | The current key and button maps become the previous ones, scroll is reset to zero, and the current maps and cursor are unchanged. |
| Input.Input.KeyEvent | src/input/mod.rs:42-54 | The key map changes as `KeyMapAfter` says. The previous key map, both button maps, the cursor and the scroll are untouched. |
| Input.Input.MouseMotionEvent | src/input/mod.rs:56-58 | Only the cursor position changes. |
| Input.Input.ClickEvent | src/input/mod.rs:60-69 | Only the current button map changes: a press sets the button to down, a release to up. The key maps are untouched. |
| Input.Input.ScrollEvent | src/input/mod.rs:71-78 | The scroll amount is replaced, not accumulated, by the line or pixel delta. Nothing else changes. |
| Input.Input.KeyDown | src/input/mod.rs:83-85 | A key is down exactly when the current map records it as true. |
| Input.Input.KeyPressed | src/input/mod.rs:87-92 | Pressed means down now and not down at the last tick, and never together with released. |
| Input.Input.KeyReleased | src/input/mod.rs:94-99 | Released means not down now and down at the last tick. |
| Input.Input.MousePos | src/input/mod.rs:101-103 | The stored cursor position. |
| Input.Input.MouseDown | src/input/mod.rs:105-107 | A button is down exactly when the current button map records it as true. |
| Input.Input.MousePressed | src/input/mod.rs:109-114 | Pressed means down now and not at the last tick, and never together with released. |
| Input.Input.MouseReleased | src/input/mod.rs:116-121 | Released means not down now and down at the last tick. |
| Input.Input.Scroll | src/input/mod.rs:123-125 | The stored scroll amount. |
| Input.FreshInputIsQuiet | src/input/mod.rs:25-34 | A fresh tracker reports every key and button as not down, not pressed and not released. |
| Input.NoEdgesAfterTick | src/input/mod.rs:36-40 | Right after a tick, no key and no button is pressed or released. |
| Assets.Assets.constructor | src/assets/mod.rs:25-32 | Assets live under `assets`. |
| Assets.Assets.SetRoot | src/assets/mod.rs:37-39 | The root is replaced by the new path. |
| Assets.Assets.ResolvePath | src/assets/mod.rs:41-43 | The resolved path string is the root, one `/`, then the path, with nothing normalised. |
| Assets.Assets.LoadMusic | src/assets/mod.rs:45-56 | Music loads from the resolved file exactly when that file decodes. It loads at volume and speed 1, not looping, not paused, not playing, and fails with "Failed to load music" otherwise. |
| Assets.Assets.LoadSound | src/assets/mod.rs:58-66 | A sound loads from the resolved file exactly when that file decodes. It loads at volume and speed 1, and fails with "Failed to load sound" otherwise. |
| Assets.Assets.LoadTexture | src/assets/mod.rs:68-131 | A texture loads exactly when the resolved file is an image. It keeps the unresolved path as its identity, and its size is the image's width and height. Otherwise it fails with "Failed to load image". |
| Assets.ResolveInjective | src/assets/mod.rs:41-43 | Under one root, different paths resolve to different path strings. |
| Assets.RootsSeparatePaths | src/assets/mod.rs:37-43 | The same path under two different roots resolves to two different path strings. |
| Assets.SharedIdentityAcrossRoots | src/assets/mod.rs:68-131 | Two textures loaded with the same path under different roots are read from different path strings yet carry the same identity, which is the batch key. |
| Assets.SeparatorsKept | src/assets/mod.rs:41-43 | A trailing `/` on the root and a leading `/` on the path are both kept (`assets/` and `/bunny.png` give `assets///bunny.png`). |

## Left out

- Matrix and camera arithmetic (`Camera::matrix`, `model_matrix`, the `f32` product in `into_raw`) is not computed. A matrix is kept as the term that would compute it. In the program, different instances or viewports can pack to the same record: a camera with an explicit size ignores the viewport, a camera offset and a sprite offset can cancel, and the zoom is clamped. The model proves nothing that depends on two terms being different.
- All `f32` values are bit patterns that are only copied. This covers the `f64`→`f32` narrowing of cursor and pixel-scroll positions and the `u32`→`f32` conversion of a texture's size, which the model keeps as whole numbers.
- Batches.DrawBatch.Add: `count` is a `nat`, so the `u32` overflow after 2^32 instances in one frame is not modelled. The same holds for the 64-bit byte size.
- The camera is a value snapshot. Sharing of a Python-side `Vec2` between a camera and the script is not modelled.
- GPU buffers are identified by the key of the batch that owns them. Their contents are modelled slot by slot; the quad's vertex and index buffers are named only.
- Image decoding, texture upload, the bind-group layout and the sampler are not modelled. `Files` stands for what the file system would yield, and the bind group is a handle passed in. Loading failures are `Err` values rather than panics.
- Path strings are not normalised before lookup. `Files` is keyed by the string as passed, so the model does not identify two strings that name one file (`assets/x` and `assets//x`, or `x` and `./x`).
- Audio playback (`src/audio/mod.rs`, `src/assets/music.rs`, `src/assets/sound.rs`) is not part of this model. Only the fields set at load time are.
- The event loop, the Python bindings (`*/api.rs`, `src/runtime.rs`, `src/lib.rs`) and surface resizing (`src/graphics/stack.rs`) are not part of this model. Key and button names stand for the `Debug` names the source formats.
- `HashMap` iteration order is an arbitrary choice, so the model proves what holds for every order.

=== FILE: assets.dfy ===
/**
 * The asset loader (src/assets/mod.rs): a root directory, path resolution by
 * plain concatenation, and what loading a texture, a piece of music or a
 * sound keeps of the file it read.
 *
 * Reading and decoding files is outside the model: a `Files` value says which
 * paths would decode and, for images, to what size.
 */
module Assets {
  import opened Common

  /** A decoded image; only its dimensions matter here. */
  datatype Image = Image(width: nat, height: nat)

  /** What the file system would yield: decodable images and audio files, keyed by the path string as passed, with no normalisation. */
  datatype Files = Files(images: map<string, Image>, audio: set<string>)

  /** The panic raised by `expect` when a file does not load. */
  datatype LoadError = LoadError(message: string, file: string)

  /**
   * `Texture` (src/assets/texture.rs): its identity is the path it was asked
   * for, its bind group a fresh GPU object, its size the image's.
   */
  datatype Texture = Texture(path: string, binding: Handle, size: Extent)

  /** Decoded audio, remembered by the file it came from. */
  datatype SoundData = SoundData(file: string)

  datatype Music = Music(data: SoundData, volume: F32, speed: F32, looping: bool, paused: bool, handle: Option<Handle>)

  datatype Sound = Sound(data: SoundData, volume: F32, speed: F32)

  class Assets {
    var root: string

    /** `Assets::new`: assets live under `assets`. */
    constructor ()
      ensures root == "assets"
    {
      root := "assets";
    }

    /** `Assets::set_root` */
    method SetRoot(path: string)
      modifies this
      ensures root == path
    {
      root := path;
    }

    /**
     * `Assets::resolve_path`: the root, one `/`, then the path, with nothing
     * normalised: a path starting with `/` yields a doubled separator.
     */
    function ResolvePath(path: string): (r: string)
      reads this
      ensures |r| == |root| + 1 + |path|
      ensures r[..|root|] == root && r[|root|] == '/' && r[|root| + 1..] == path
    {
      root + "/" + path
    }

    /** `Assets::music`: decoded from the resolved file, at full volume and speed, not looping, not paused, not playing. */
    function LoadMusic(path: string, files: Files): (r: Result<Music, LoadError>)
      reads this
      ensures r.Ok? <==> ResolvePath(path) in files.audio
      ensures r.Ok? ==> r.value == Music(SoundData(ResolvePath(path)), ONE, ONE, false, false, None)
      ensures r.Err? ==> r.error == LoadError("Failed to load music", ResolvePath(path))
    {
      var file := ResolvePath(path);
      if file in files.audio then Ok(Music(SoundData(file), ONE, ONE, false, false, None))
      else Err(LoadError("Failed to load music", file))
    }

    /** `Assets::sound`: decoded from the resolved file, at full volume and speed. */
    function LoadSound(path: string, files: Files): (r: Result<Sound, LoadError>)
      reads this
      ensures r.Ok? <==> ResolvePath(path) in files.audio
      ensures r.Ok? ==> r.value == Sound(SoundData(ResolvePath(path)), ONE, ONE)
      ensures r.Err? ==> r.error == LoadError("Failed to load sound", ResolvePath(path))
    {
      var file := ResolvePath(path);
      if file in files.audio then Ok(Sound(SoundData(file), ONE, ONE))
      else Err(LoadError("Failed to load sound", file))
    }

    /**
     * `Assets::texture`: the image is read from the RESOLVED path, but the
     * texture keeps the path as given; its size is the image's width and
     * height. `binding` is the bind group the device creates for it.
     */
    function LoadTexture(path: string, files: Files, binding: Handle): (r: Result<Texture, LoadError>)
      reads this
      ensures r.Ok? <==> ResolvePath(path) in files.images
      ensures r.Ok? ==> r.value.path == path && r.value.binding == binding
      ensures r.Ok? ==> r.value.size == Extent(files.images[ResolvePath(path)].width, files.images[ResolvePath(path)].height)
      ensures r.Err? ==> r.error == LoadError("Failed to load image", ResolvePath(path))
    {
      var file := ResolvePath(path);
      if file in files.images then
        var image := files.images[file];
        Ok(Texture(path, binding, Extent(image.width, image.height)))
      else Err(LoadError("Failed to load image", file))
    }
  }

  /**
   * Resolution under one root loses nothing: different paths give different
   * path strings (whether two strings name one file is not modelled).
   */
  lemma ResolveInjective(assets: Assets, p: string, q: string)
    ensures assets.ResolvePath(p) == assets.ResolvePath(q) ==> p == q
  {
    if assets.ResolvePath(p) == assets.ResolvePath(q) {
      calc {
        p;
        assets.ResolvePath(p)[|assets.root| + 1..];
        assets.ResolvePath(q)[|assets.root| + 1..];
        q;
      }
    }
  }

  /** The same relative path under two different roots gives two different path strings. */
  lemma RootsSeparatePaths(a: Assets, b: Assets, path: string)
    requires a.root != b.root
    ensures a.ResolvePath(path) != b.ResolvePath(path)
  {
    var ra, rb := a.ResolvePath(path), b.ResolvePath(path);
    if |a.root| == |b.root| {
      assert ra[..|a.root|] != rb[..|b.root|];
    } else {
      assert |ra| != |rb|;
    }
  }

  /**
   * Two textures loaded with the same path under different roots are read
   * from different path strings yet carry the same identity, which is the key the
   * renderer batches by.
   */
  lemma SharedIdentityAcrossRoots(a: Assets, b: Assets, path: string, files: Files, h1: Handle, h2: Handle)
    requires a.root != b.root
    requires a.LoadTexture(path, files, h1).Ok? && b.LoadTexture(path, files, h2).Ok?
    ensures a.ResolvePath(path) != b.ResolvePath(path)
    ensures a.LoadTexture(path, files, h1).value.path == b.LoadTexture(path, files, h2).value.path == path
  {
    RootsSeparatePaths(a, b, path);
  }

  /** No normalisation: a leading `/` in the path and a trailing one in the root are both kept. */
  lemma SeparatorsKept(assets: Assets)
    requires assets.root == "assets/"
    ensures assets.ResolvePath("/bunny.png") == "assets///bunny.png"
  {
  }
}

=== FILE: batches.dfy ===
/**
 * One draw batch: the instances gathered under one key during a frame, the
 * GPU buffer they are uploaded to, and the idle countdown that decides when
 * the batch is dropped (src/graphics/draw.rs, lines 85-167).
 *
 * The value functions (NewBatch, WithInstance, Flush) say what each operation
 * does to a snapshot of a batch; the class DrawBatch is the mutable object of
 * the source, and each of its members is proved to follow the function.
 */
module Batches {
  import opened Common
  import opened Instances

  /** `DrawBatch::LIFETIME`: idle frames a batch survives. */
  const LIFETIME: nat := 10

  /**
   * One `RAW_INSTANCE_SIZE`-byte slot of a batch's GPU buffer. Every buffer the
   * batch allocates is a whole number of records long, and wgpu hands out
   * new buffers zero-filled.
   */
  datatype Slot = Zeroed | Packed(raw: RawInstance)

  /** A freshly allocated buffer with room for `n` records. */
  function Zeroes(n: nat): (b: seq<Slot>)
    ensures |b| == n && forall i :: 0 <= i < n ==> b[i] == Zeroed
  {
    seq(n, _ => Zeroed)
  }

  /** The drained instances, each packed with `into_raw`, in order. */
  function Pack(instances: seq<DrawInstance>, viewport: Viewport): (slots: seq<Slot>)
    ensures |slots| == |instances|
    ensures forall i :: 0 <= i < |instances| ==> slots[i] == Packed(IntoRaw(instances[i], viewport))
  {
    seq(|instances|, i requires 0 <= i < |instances| => Packed(IntoRaw(instances[i], viewport)))
  }

  /**
   * A snapshot of a `DrawBatch`. `size` is the recorded byte size; `buffer` is
   * the GPU buffer the batch currently owns, slot by slot.
   */
  datatype BatchState = BatchState(
    batchLabel: string,   // `label`, a reserved word in Dafny
    attachments: seq<Attachment>,
    instances: seq<DrawInstance>,
    size: nat,
    count: nat,
    lifetime: nat,
    buffer: seq<Slot>)
  {
    /** Bytes allocated for the GPU buffer. */
    function Capacity(): nat {
      RAW_INSTANCE_SIZE * |buffer|
    }

    /**
     * What every batch keeps true: `count` is the number of pending
     * instances, and the buffer is at least as large as the recorded size.
     */
    predicate Valid() {
      count == |instances| && size <= Capacity()
    }
  }

  /** `DrawBatch::new`: a buffer sized exactly for the initial instances, full lifetime. */
  function NewBatch(batchLabel: string, attachments: seq<Attachment>, instances: seq<DrawInstance>): (s: BatchState)
    ensures s.Valid()
    ensures s.batchLabel == batchLabel && s.attachments == attachments && s.instances == instances
    ensures s.count == |instances| && s.lifetime == LIFETIME
    ensures s.size == RAW_INSTANCE_SIZE * |instances| == s.Capacity()
  {
    BatchState(batchLabel, attachments, instances, RAW_INSTANCE_SIZE * |instances|, |instances|, LIFETIME, Zeroes(|instances|))
  }

  /** `DrawBatch::add`: one more pending instance; nothing else changes. */
  function WithInstance(s: BatchState, instance: DrawInstance): (t: BatchState)
    ensures s.Valid() ==> t.Valid()
    ensures t.instances == s.instances + [instance] && t.count == s.count + 1
    ensures t.(instances := s.instances, count := s.count) == s
  {
    s.(instances := s.instances + [instance], count := s.count + 1)
  }

  /**
   * The outcome of a flush: the batch afterwards, the value `write` returns,
   * and whether a new GPU buffer was allocated.
   */
  datatype Flushed = Flushed(batch: BatchState, drawn: nat, reallocated: bool)

  /**
   * `DrawBatch::write`: the once-per-frame flush. The buffer is replaced by a
   * new one of exactly the required size when the required size exceeds the
   * RECORDED size (which is never updated); the pending instances are packed
   * to the front of the buffer; the countdown restarts on a frame with draws
   * and otherwise steps down towards 0; the pending count is returned and reset.
   */
  function Flush(s: BatchState, viewport: Viewport): (f: Flushed)
    requires s.Valid()
    ensures f.batch.Valid()
    ensures f.drawn == s.count
    ensures f.batch.count == 0 && f.batch.instances == []
    ensures f.batch.batchLabel == s.batchLabel && f.batch.attachments == s.attachments && f.batch.size == s.size
    // the lifetime rule
    ensures s.count > 0 ==> f.batch.lifetime == LIFETIME
    ensures s.count == 0 && s.lifetime > 0 ==> f.batch.lifetime + 1 == s.lifetime
    ensures s.count == 0 && s.lifetime == 0 ==> f.batch.lifetime == 0
    // the buffer rule: reallocated exactly when the needed bytes exceed the recorded size
    ensures f.reallocated <==> RAW_INSTANCE_SIZE * s.count > s.size
    ensures RAW_INSTANCE_SIZE * s.count > s.size ==> f.batch.Capacity() == RAW_INSTANCE_SIZE * s.count
    ensures RAW_INSTANCE_SIZE * s.count <= s.size ==> |f.batch.buffer| == |s.buffer|
    // the upload: the packed instances, in order, at offset 0; the rest of the buffer is kept
    ensures RAW_INSTANCE_SIZE * s.count <= f.batch.Capacity()
    ensures f.batch.buffer[..s.count] == Pack(s.instances, viewport)
    ensures RAW_INSTANCE_SIZE * s.count <= s.size ==> f.batch.buffer[s.count..] == s.buffer[s.count..]
  {
    var required := RAW_INSTANCE_SIZE * s.count;
    var buffer := if required > s.size then Zeroes(s.count) else s.buffer;
    var uploaded := if required > 0 then Pack(s.instances, viewport) + buffer[s.count..] else buffer;
    var lifetime := if s.count > 0 then LIFETIME else if s.lifetime > 0 then s.lifetime - 1 else 0;
    Flushed(s.(instances := [], buffer := uploaded, lifetime := lifetime, count := 0), s.count, required > s.size)
  }

  /**
   * The code never records the size of the buffer it reallocates, so the
   * buffer is not grow-only: a batch created with one instance that then
   * flushes three and afterwards two ends up with a smaller buffer.
   */
  lemma CapacityCanShrink(batchLabel: string, attachments: seq<Attachment>, d: DrawInstance, viewport: Viewport)
    ensures var s0 := NewBatch(batchLabel, attachments, [d]);
            var s1 := Flush(WithInstance(WithInstance(s0, d), d), viewport).batch;
            var s2 := Flush(WithInstance(WithInstance(s1, d), d), viewport).batch;
            s1.Capacity() == 3 * RAW_INSTANCE_SIZE &&
            s2.Capacity() == 2 * RAW_INSTANCE_SIZE &&
            s2.size == s1.size == s0.size == RAW_INSTANCE_SIZE
  {
    var s0 := NewBatch(batchLabel, attachments, [d]);
    var a := WithInstance(WithInstance(s0, d), d);
    assert a.count == 3 && a.size == RAW_INSTANCE_SIZE;
    var s1 := Flush(a, viewport).batch;
    assert |s1.buffer| == 3;
    var b := WithInstance(WithInstance(s1, d), d);
    assert b.count == 2 && b.size == RAW_INSTANCE_SIZE;
    var s2 := Flush(b, viewport).batch;
    assert |s2.buffer| == 2;
  }

  /** `add` called once per instance, in order. */
  function WithInstances(s: BatchState, xs: seq<DrawInstance>): (t: BatchState)
    ensures s.Valid() ==> t.Valid()
    ensures t.count == s.count + |xs| && t.size == s.size
    decreases |xs|
  {
    if xs == [] then s else WithInstances(WithInstance(s, xs[0]), xs[1..])
  }

  /**
   * A batch over several frames: in each frame the frame's instances are
   * added, then the batch is flushed once.
   */
  function Frames(s: BatchState, frames: seq<seq<DrawInstance>>, viewport: Viewport): (t: BatchState)
    requires s.Valid()
    ensures t.Valid()
    decreases |frames|
  {
    if frames == [] then s
    else
      var before := Frames(s, frames[..|frames| - 1], viewport);
      Flush(WithInstances(before, frames[|frames| - 1]), viewport).batch
  }

  /**
   * Since `size` is never updated, a batch that `Batcher::add` creates for
   * its first instance `x` keeps a recorded size of one record forever, and
   * allocates a new buffer in EVERY frame in which it draws two or more
   * instances. `frames[0]` holds the instances added after `x` in the frame
   * that created the batch.
   */
  lemma {:induction false} ReallocatesEveryBusyFrame(batchLabel: string, attachments: seq<Attachment>, x: DrawInstance,
                                                     frames: seq<seq<DrawInstance>>, viewport: Viewport, i: nat)
    requires i < |frames|
    ensures var start := NewBatch(batchLabel, attachments, [x]);
            var before := Frames(start, frames[..i], viewport);
            var drawn := (if i == 0 then 1 else 0) + |frames[i]|;
            && before.size == RAW_INSTANCE_SIZE
            && Flush(WithInstances(before, frames[i]), viewport).drawn == drawn
            && (Flush(WithInstances(before, frames[i]), viewport).reallocated <==> drawn >= 2)
    decreases i
  {
    var start := NewBatch(batchLabel, attachments, [x]);
    if i == 0 {
      assert frames[..0] == [];
    } else {
      ReallocatesEveryBusyFrame(batchLabel, attachments, x, frames, viewport, i - 1);
      assert frames[..i][..i - 1] == frames[..i - 1];
      assert Frames(start, frames[..i], viewport).count == 0;
    }
  }

  /** The mutable batch object. */
  class DrawBatch {
    /** The source's `label` (a reserved word in Dafny): the key the batch was created under. */
    const batchLabel: string
    const attachments: seq<Attachment>
    var instances: seq<DrawInstance>
    var size: nat
    var count: nat
    var lifetime: nat
    /** The GPU buffer, slot by slot. */
    ghost var buffer: seq<Slot>

    ghost function State(): BatchState
      reads this
    {
      BatchState(batchLabel, attachments, instances, size, count, lifetime, buffer)
    }

    ghost predicate Valid()
      reads this
    {
      State().Valid()
    }

    /** `DrawBatch::new` */
    constructor (batchLabel: string, attachments: seq<Attachment>, instances: seq<DrawInstance>)
      ensures Valid()
      ensures State() == NewBatch(batchLabel, attachments, instances)
    {
      this.batchLabel := batchLabel;
      this.attachments := attachments;
      this.instances := instances;
      this.count := |instances|;
      this.size := RAW_INSTANCE_SIZE * |instances|;
      this.buffer := Zeroes(|instances|);
      this.lifetime := LIFETIME;
    }

    /** `DrawBatch::add` */
    method Add(instance: DrawInstance)
      requires Valid()
      modifies this
      ensures Valid()
      ensures State() == WithInstance(old(State()), instance)
    {
      instances := instances + [instance];
      count := count + 1;
    }

    /** `DrawBatch::write`; `reallocated` says whether a new buffer was created. */
    method Write(viewport: Viewport) returns (drawn: nat, ghost reallocated: bool)
      requires Valid()
      modifies this
      ensures Valid()
      ensures State() == Flush(old(State()), viewport).batch
      ensures drawn == Flush(old(State()), viewport).drawn
      ensures reallocated == Flush(old(State()), viewport).reallocated
    {
      var required := RAW_INSTANCE_SIZE * count;
      reallocated := false;
      if required > size {
        buffer := Zeroes(count);
        reallocated := true;
      }

      if required > 0 {
        var raws := Pack(instances, viewport);
        buffer := raws + buffer[|raws|..];
        instances := [];
      }

      if count > 0 {
        lifetime := LIFETIME;
      } else if lifetime > 0 {
        lifetime := lifetime - 1;
      }

      drawn := count;
      count := 0;
    }
  }
}

=== FILE: batching.dfy ===
/**
 * The batcher: draw batches keyed by a string (the texture path), created
 * lazily by `add` and dropped by `cleanup` once their idle countdown has run
 * out (src/graphics/draw.rs, lines 169-209).
 *
 * `BatchMap` is the value the batcher holds; Insert, WithoutDead and Submitted say
 * what one call or one frame does to it; the class Batcher is the mutable
 * object, proved to follow them.
 */
module Batching {
  import opened Common
  import opened Instances
  import opened Batches

  /** The contents of `Batcher::batches`. */
  type BatchMap = map<string, BatchState>

  /** Every batch is well formed and is labelled with its own key. */
  predicate AllValid(m: BatchMap) {
    forall k :: k in m ==> m[k].Valid() && m[k].batchLabel == k
  }

  /** Between frames no batch sits at lifetime 0: cleanup has just removed those. */
  predicate Live(m: BatchMap) {
    forall k :: k in m ==> m[k].lifetime > 0
  }

  /**
   * `Batcher::add`: an unseen key gets a new batch holding just this instance
   * and these attachments; a known key gets the instance appended and the
   * attachments passed in are ignored. No other batch changes.
   */
  function Insert(m: BatchMap, id: string, attachments: seq<Attachment>, instance: DrawInstance): (r: BatchMap)
    ensures r.Keys == m.Keys + {id}
    ensures forall k :: k in m && k != id ==> r[k] == m[k]
    ensures id !in m ==> r[id] == NewBatch(id, attachments, [instance])
    ensures id in m ==> r[id] == WithInstance(m[id], instance)
  {
    if id in m then m[id := WithInstance(m[id], instance)]
    else m[id := NewBatch(id, attachments, [instance])]
  }

  /** `add` keeps every batch well formed and labelled, and creates no dead batch. */
  lemma InsertPreserves(m: BatchMap, id: string, attachments: seq<Attachment>, instance: DrawInstance)
    ensures AllValid(m) ==> AllValid(Insert(m, id, attachments, instance))
    ensures Live(m) ==> Live(Insert(m, id, attachments, instance))
  {
    var r := Insert(m, id, attachments, instance);
    if id in m {
      assert r[id] == WithInstance(m[id], instance);
    }
  }

  /** Two batch maps with the same keys and the same batch under each key are equal. */
  lemma SameBatches(a: BatchMap, b: BatchMap)
    requires a.Keys == b.Keys && forall k :: k in a ==> a[k] == b[k]
    ensures a == b
  {
  }

  /** `Batcher::cleanup`: exactly the batches at lifetime 0 go; the rest are untouched. */
  function WithoutDead(m: BatchMap): (r: BatchMap)
    ensures forall k :: k in r <==> k in m && m[k].lifetime != 0
    ensures forall k :: k in r ==> r[k] == m[k]
    ensures AllValid(m) ==> AllValid(r)
    ensures Live(r)
  {
    map k | k in m && m[k].lifetime != 0 :: m[k]
  }

  /** Every batch flushed once (`write` on each value of the map). */
  function FlushAll(m: BatchMap, viewport: Viewport): (r: BatchMap)
    requires AllValid(m)
    ensures r.Keys == m.Keys
    ensures forall k :: k in m ==> r[k] == Flush(m[k], viewport).batch
    ensures AllValid(r)
  {
    map k | k in m :: Flush(m[k], viewport).batch
  }

  /** Part way through the flush loop: the batches still in `todo` are untouched, the rest flushed. */
  function FlushedExcept(m: BatchMap, todo: set<string>, viewport: Viewport): (r: BatchMap)
    requires AllValid(m)
    ensures r.Keys == m.Keys
  {
    map k | k in m :: if k in todo then m[k] else Flush(m[k], viewport).batch
  }

  /** Flushing one more batch of the loop. */
  lemma FlushedExceptStep(m: BatchMap, todo: set<string>, id: string, viewport: Viewport)
    requires AllValid(m) && id in todo && id in m
    ensures FlushedExcept(m, todo - {id}, viewport) == FlushedExcept(m, todo, viewport)[id := Flush(m[id], viewport).batch]
  {
  }

  /** Before the loop nothing is flushed; after it everything is. */
  lemma FlushedExceptEnds(m: BatchMap, viewport: Viewport)
    requires AllValid(m)
    ensures FlushedExcept(m, m.Keys, viewport) == m
    ensures FlushedExcept(m, {}, viewport) == FlushAll(m, viewport)
  {
  }

  /** What one `Draw::submit` does to the batches: flush every batch, then clean up once. */
  function Submitted(m: BatchMap, viewport: Viewport): (r: BatchMap)
    requires AllValid(m)
    ensures AllValid(r) && Live(r)
  {
    WithoutDead(FlushAll(m, viewport))
  }

  /**
   * A batch survives a frame exactly when it was drawn that frame or still had
   * more than one idle frame left; a survivor has been flushed.
   */
  lemma SubmitSurvivors(m: BatchMap, viewport: Viewport, k: string)
    requires AllValid(m)
    ensures k in Submitted(m, viewport) <==> k in m && (m[k].count > 0 || m[k].lifetime > 1)
    ensures k in Submitted(m, viewport) ==> Submitted(m, viewport)[k] == Flush(m[k], viewport).batch
  {
    if k in m {
      var f := Flush(m[k], viewport).batch;
      assert FlushAll(m, viewport)[k] == f;
      assert f.lifetime != 0 <==> m[k].count > 0 || m[k].lifetime > 1;
    }
  }

  /** `n` consecutive frames in which nothing is drawn. */
  function IdleFrames(m: BatchMap, viewport: Viewport, n: nat): (r: BatchMap)
    requires AllValid(m)
    ensures AllValid(r)
    decreases n
  {
    if n == 0 then m else Submitted(IdleFrames(m, viewport, n - 1), viewport)
  }

  /**
   * A batch with nothing pending and `L` frames of lifetime left is still
   * there, counting down, for the first `L - 1` idle frames.
   */
  lemma {:induction false} IdleCountdown(m: BatchMap, viewport: Viewport, k: string, n: nat)
    requires AllValid(m) && k in m && m[k].count == 0
    requires n < m[k].lifetime
    ensures k in IdleFrames(m, viewport, n)
    ensures IdleFrames(m, viewport, n)[k].lifetime == m[k].lifetime - n
    ensures IdleFrames(m, viewport, n)[k].count == 0
  {
    if n > 0 {
      IdleCountdown(m, viewport, k, n - 1);
      SubmitSurvivors(IdleFrames(m, viewport, n - 1), viewport, k);
    }
  }

  /** ... and is gone after the `L`-th. */
  lemma IdleEviction(m: BatchMap, viewport: Viewport, k: string)
    requires AllValid(m) && k in m && m[k].count == 0 && m[k].lifetime > 0
    ensures k !in IdleFrames(m, viewport, m[k].lifetime)
  {
    var n := m[k].lifetime;
    IdleCountdown(m, viewport, k, n - 1);
    SubmitSurvivors(IdleFrames(m, viewport, n - 1), viewport, k);
  }

  /**
   * The eviction timing: a batch drawn in one frame and then left idle is
   * present after 9 idle frames and removed by the 10th frame's cleanup.
   */
  lemma DrawnThenIdle(m: BatchMap, viewport: Viewport, k: string)
    requires AllValid(m) && k in m && m[k].count > 0
    ensures k in Submitted(m, viewport) && Submitted(m, viewport)[k].lifetime == LIFETIME
    ensures k in IdleFrames(Submitted(m, viewport), viewport, LIFETIME - 1)
    ensures IdleFrames(Submitted(m, viewport), viewport, LIFETIME - 1)[k].lifetime == 1
    ensures k !in IdleFrames(Submitted(m, viewport), viewport, LIFETIME)
  {
    var s := Submitted(m, viewport);
    SubmitSurvivors(m, viewport, k);
    IdleCountdown(s, viewport, k, LIFETIME - 1);
    IdleEviction(s, viewport, k);
  }

  /** The mutable batcher. */
  class Batcher {
    var batches: map<string, DrawBatch>

    /**
     * Each key holds a well-formed batch labelled with that key; as the label
     * cannot change, no batch object is shared between two keys.
     */
    ghost predicate Valid()
      reads this, batches.Values
    {
      forall k :: k in batches ==> batches[k].Valid() && batches[k].batchLabel == k
    }

    /** The batches as values. */
    ghost function Snapshot(): (m: BatchMap)
      reads this, batches.Values
      ensures m.Keys == batches.Keys
      ensures forall k :: k in m ==> m[k] == batches[k].State()
    {
      map k | k in batches :: batches[k].State()
    }

    /** `Batcher::new` */
    constructor ()
      ensures Valid()
      ensures Snapshot() == map[]
    {
      batches := map[];
    }

    /** `Batcher::add` */
    method Add(id: string, attachments: seq<Attachment>, instance: DrawInstance)
      requires Valid()
      modifies this, batches.Values
      ensures Valid()
      ensures Snapshot() == Insert(old(Snapshot()), id, attachments, instance)
      ensures fresh(batches.Values - old(batches.Values))
    {
      ghost var before := Snapshot();
      if id in batches {
        var batch := batches[id];
        ghost var expected := before[id := WithInstance(before[id], instance)];
        batch.Add(instance);
        forall k | k in batches
          ensures batches[k].State() == expected[k] && batches[k].Valid() && batches[k].batchLabel == k
        {
          if k != id {
            assert batches[k].batchLabel != batch.batchLabel;
          }
        }
        SameBatches(Snapshot(), expected);
      } else {
        var batch := new DrawBatch(id, attachments, [instance]);
        ghost var expected := before[id := NewBatch(id, attachments, [instance])];
        batches := batches[id := batch];
        forall k | k in batches
          ensures batches[k].State() == expected[k] && batches[k].Valid() && batches[k].batchLabel == k
        {
          if k != id {
            assert batches[k] == old(batches[k]);
          }
        }
        SameBatches(Snapshot(), expected);
      }
    }

    /** `batch.write(video)` on the batch stored under `id`: only that batch changes, as `Flush` says. */
    method WriteBatch(id: string, viewport: Viewport) returns (count: nat)
      requires Valid() && id in batches
      modifies batches[id]
      ensures Valid() && batches == old(batches)
      ensures count == old(Snapshot())[id].count
      ensures batches[id].State() == Flush(old(Snapshot())[id], viewport).batch
      ensures Snapshot() == old(Snapshot())[id := Flush(old(Snapshot())[id], viewport).batch]
    {
      ghost var before := Snapshot();
      ghost var expected := before[id := Flush(before[id], viewport).batch];
      ghost var reallocated;
      count, reallocated := batches[id].Write(viewport);
      assert forall k :: k in batches ==> batches[k].State() == expected[k];
      SameBatches(Snapshot(), expected);
    }

    /** The first half of `Batcher::cleanup`: the keys whose batch is at lifetime 0. */
    method DeadKeys() returns (dead: seq<string>)
      requires Valid()
      ensures forall k :: k in dead <==> k in batches && batches[k].lifetime == 0
    {
      dead := [];
      var todo := batches.Keys;
      while todo != {}
        invariant todo <= batches.Keys
        invariant forall k :: k in dead <==> k in batches && k !in todo && batches[k].lifetime == 0
        decreases todo
      {
        var id :| id in todo;
        if batches[id].lifetime == 0 {
          dead := dead + [id];
        }
        todo := todo - {id};
      }
    }

    /** `Batcher::cleanup`: collect the dead keys, then remove them. */
    method Cleanup()
      requires Valid()
      modifies this
      ensures Valid()
      ensures batches.Keys == set k | k in old(batches) && old(batches[k].lifetime) != 0
      ensures forall k :: k in batches ==> batches[k] == old(batches[k])
      ensures batches.Values <= old(batches.Values)
      ensures Snapshot() == WithoutDead(old(Snapshot()))
    {
      var dead := DeadKeys();
      var i := 0;
      while i < |dead|
        invariant i <= |dead|
        invariant forall k :: k in batches <==> k in old(batches) && k !in dead[..i]
        invariant forall k :: k in batches ==> batches[k] == old(batches[k])
      {
        batches := batches - {dead[i]};
        i := i + 1;
        assert dead[..i] == dead[..i - 1] + [dead[i - 1]];
      }
      assert dead[..i] == dead;
      ghost var expected := WithoutDead(old(Snapshot()));
      assert forall k :: k in batches ==> batches[k].State() == expected[k];
      SameBatches(Snapshot(), expected);
    }
  }
}

=== FILE: common.dfy ===
/**
 * Values shared by the renderer, the input tracker and the asset loader.
 *
 * Floating-point numbers never take part in the logic that is modelled: a
 * 32-bit float is kept as its IEEE-754 bit pattern and only copied around.
 */
module Common {

  datatype Option<T> = None | Some(value: T) {
    /** `unwrap_or`: the carried value, or `default` when there is none. */
    function GetOr(default: T): T {
      match this
      case Some(v) => v
      case None => default
    }
  }

  datatype Result<T, E> = Ok(value: T) | Err(error: E)

  /** An `f32`, as its bit pattern; no arithmetic on it is modelled. */
  datatype F32 = F32(bits: bv32)

  /** 0.0 */
  const ZERO: F32 := F32(0)
  /** 1.0 */
  const ONE: F32 := F32(0x3F80_0000)

  /** A pair of `f32`s (the engine's `Vec2`, also `glam::Vec2`). */
  datatype Vec2 = Vec2(x: F32, y: F32)

  const VEC2_ZERO: Vec2 := Vec2(ZERO, ZERO)
  const VEC2_ONE: Vec2 := Vec2(ONE, ONE)

  /** A linear RGBA colour. */
  datatype Color = Color(r: F32, g: F32, b: F32, a: F32)

  /** `Color::WHITE` */
  const WHITE: Color := Color(ONE, ONE, ONE, ONE)

  /** A pixel extent (`u32` width and height). */
  datatype Extent = Extent(width: nat, height: nat)

  /** The identity of a shared GPU object behind an `Arc` (pipeline, bind group). */
  datatype Handle = Handle(id: nat)
}

=== FILE: drawing.dfy ===
/**
 * The sprite front end and the once-per-frame submission
 * (src/graphics/draw.rs, lines 211-292).
 *
 * `sprite` turns a texture and a placement into an instance and files it in
 * the batcher under the texture's path; `submit` binds the shared quad,
 * flushes every batch, draws the ones that had instances and finally runs
 * the cleanup sweep. The render pass is modelled by the sequence of calls
 * made on it.
 */
module Drawing {
  import opened Common
  import opened Instances
  import opened Batches
  import opened Batching
  import opened Assets

  /**
   * The calls made on the render pass for one flushed batch: nothing when it
   * had no instances, otherwise its attachments in stored order, its instance
   * buffer in slot 1, and one instanced draw of the quad's 6 indices.
   */
  function BatchEvents(batchLabel: string, attachments: seq<Attachment>, count: nat): (events: seq<PassEvent>)
  {
    if count == 0 then []
    else AttachAll(attachments) + [SetVertexBuffer(1, InstanceBuffer(batchLabel)), DrawIndexed(0, NUM_INDICES, 0, 0, count)]
  }

  /** The calls `submit` makes on the pass for one batch after its flush returned `count`. */
  method RecordBatch(events: seq<PassEvent>, batchLabel: string, attachments: seq<Attachment>, count: nat) returns (out: seq<PassEvent>)
    ensures out == events + BatchEvents(batchLabel, attachments, count)
  {
    out := events;
    if count == 0 {
      return;
    }
    var i := 0;
    while i < |attachments|
      invariant i <= |attachments|
      invariant out == events + AttachAll(attachments)[..i]
    {
      out := out + [Attach(attachments[i])];
      i := i + 1;
      assert AttachAll(attachments)[..i] == AttachAll(attachments)[..i - 1] + [Attach(attachments[i - 1])];
    }
    assert AttachAll(attachments)[..i] == AttachAll(attachments);
    out := out + [SetVertexBuffer(1, InstanceBuffer(batchLabel)), DrawIndexed(0, NUM_INDICES, 0, 0, count)];
  }

  /** The calls made for the batches of `m` visited in `order` (map iteration order). */
  function Trace(m: BatchMap, order: seq<string>): seq<PassEvent>
    requires forall i :: 0 <= i < |order| ==> order[i] in m
  {
    if order == [] then []
    else
      var last := m[order[|order| - 1]];
      Trace(m, order[..|order| - 1]) + BatchEvents(last.batchLabel, last.attachments, last.count)
  }

  lemma TraceStep(m: BatchMap, order: seq<string>, k: string)
    requires forall i :: 0 <= i < |order| ==> order[i] in m
    requires k in m
    ensures forall i :: 0 <= i < |order + [k]| ==> (order + [k])[i] in m
    ensures Trace(m, order + [k]) == Trace(m, order) + BatchEvents(m[k].batchLabel, m[k].attachments, m[k].count)
  {
    assert (order + [k])[..|order|] == order;
  }

  /** The draw calls among a sequence of render-pass calls. */
  function Draws(events: seq<PassEvent>): (draws: seq<PassEvent>)
    ensures forall i :: 0 <= i < |draws| ==> draws[i].DrawIndexed?
    ensures |draws| <= |events|
  {
    if events == [] then []
    else Draws(events[..|events| - 1]) + (if events[|events| - 1].DrawIndexed? then [events[|events| - 1]] else [])
  }

  /** The batches, in visiting order, that had instances to draw. */
  function DrawnKeys(m: BatchMap, order: seq<string>): (keys: seq<string>)
    requires forall i :: 0 <= i < |order| ==> order[i] in m
    ensures forall i :: 0 <= i < |keys| ==> keys[i] in order && m[keys[i]].count > 0
    ensures forall k :: k in order && m[k].count > 0 ==> k in keys
  {
    if order == [] then []
    else
      var last := order[|order| - 1];
      DrawnKeys(m, order[..|order| - 1]) + (if m[last].count > 0 then [last] else [])
  }

  lemma {:induction false} DrawsAppend(a: seq<PassEvent>, b: seq<PassEvent>)
    ensures Draws(a + b) == Draws(a) + Draws(b)
    decreases |b|
  {
    if b != [] {
      var b' := b[..|b| - 1];
      assert (a + b)[..|a + b| - 1] == a + b';
      DrawsAppend(a, b');
    } else {
      assert a + b == a;
    }
  }

  /** A batch's calls hold one draw when its count is nonzero, none otherwise. */
  lemma BatchEventsDraws(batchLabel: string, attachments: seq<Attachment>, count: nat)
    ensures Draws(BatchEvents(batchLabel, attachments, count)) == if count == 0 then [] else [DrawIndexed(0, NUM_INDICES, 0, 0, count)]
  {
    if count > 0 {
      var attach := AttachAll(attachments);
      var tail := [SetVertexBuffer(1, InstanceBuffer(batchLabel)), DrawIndexed(0, NUM_INDICES, 0, 0, count)];
      DrawsAppend(attach, tail);
      AttachNeverDraws(attach);
      assert Draws(tail) == Draws([tail[0]]) + [tail[1]] by {
        assert tail[..1] == [tail[0]];
      }
      assert Draws([tail[0]]) == Draws([]) + [];
    }
  }

  lemma {:induction false} AttachNeverDraws(events: seq<PassEvent>)
    requires forall i :: 0 <= i < |events| ==> !events[i].DrawIndexed?
    ensures Draws(events) == []
    decreases |events|
  {
    if events != [] {
      AttachNeverDraws(events[..|events| - 1]);
    }
  }

  /**
   * Submission issues exactly one draw per batch whose flush returned a
   * nonzero count, in visiting order, each over the quad's 6 indices and
   * instances `0..count`; batches that returned 0 draw nothing.
   */
  lemma {:induction false} TraceDraws(m: BatchMap, order: seq<string>)
    requires forall i :: 0 <= i < |order| ==> order[i] in m
    ensures |Draws(Trace(m, order))| == |DrawnKeys(m, order)|
    ensures forall i :: 0 <= i < |DrawnKeys(m, order)| ==>
      Draws(Trace(m, order))[i] == DrawIndexed(0, NUM_INDICES, 0, 0, m[DrawnKeys(m, order)[i]].count)
    decreases |order|
  {
    if order != [] {
      var front := order[..|order| - 1];
      var last := order[|order| - 1];
      TraceDraws(m, front);
      var b := m[last];
      DrawsAppend(Trace(m, front), BatchEvents(b.batchLabel, b.attachments, b.count));
      BatchEventsDraws(b.batchLabel, b.attachments, b.count);
    }
  }

  /** The attachments a sprite of `texture` is drawn with: the sprite pipeline, then the texture. */
  function SpriteAttachments(pipeline: Handle, texture: Texture): seq<Attachment>
  {
    [Pipeline(pipeline), Attachment.Texture(texture.binding)]
  }

  /**
   * The instance a `sprite` call records: the current camera if one is set,
   * else the default one; the model matrix from the position, the rotation
   * (0 by default) and the texture's size times the scale (1 by default);
   * the tint, white by default.
   */
  function SpriteInstance(current: Option<Camera>, default: Camera, texture: Texture,
                          position: Vec2, rotation: Option<F32>, scale: Option<Vec2>, tint: Option<Color>): (d: DrawInstance)
    ensures d.camera == (if current.Some? then current.value else default)
    ensures d.color == (if tint.Some? then tint.value else WHITE)
    ensures d.model.ModelMatrix? && d.model.position == position && d.model.size == texture.size
    ensures d.model.rotation == (if rotation.Some? then rotation.value else ZERO)
    ensures d.model.scale == (if scale.Some? then scale.value else VEC2_ONE)
  {
    DrawInstance(current.GetOr(default),
                 ModelMatrix(position, rotation.GetOr(ZERO), texture.size, scale.GetOr(VEC2_ONE)),
                 tint.GetOr(WHITE))
  }

  /**
   * One `sprite` call: its arguments and the camera override in effect when
   * it was made (`set_camera` may change it between two calls).
   */
  datatype SpriteCall = SpriteCall(camera: Option<Camera>, texture: Texture, position: Vec2,
                                   rotation: Option<F32>, scale: Option<Vec2>, tint: Option<Color>)

  /** The batches after a frame's `sprite` calls, made in order. */
  function SpriteFrame(m: BatchMap, pipeline: Handle, default: Camera, calls: seq<SpriteCall>): BatchMap
    decreases |calls|
  {
    if calls == [] then m
    else
      var c := calls[|calls| - 1];
      Insert(SpriteFrame(m, pipeline, default, calls[..|calls| - 1]),
             c.texture.path, SpriteAttachments(pipeline, c.texture),
             SpriteInstance(c.camera, default, c.texture, c.position, c.rotation, c.scale, c.tint))
  }

  /** The instances the calls with this path record, in call order. */
  function InstancesFor(default: Camera, calls: seq<SpriteCall>, path: string): seq<DrawInstance>
    decreases |calls|
  {
    if calls == [] then []
    else
      var c := calls[|calls| - 1];
      InstancesFor(default, calls[..|calls| - 1], path) +
        (if c.texture.path == path then [SpriteInstance(c.camera, default, c.texture, c.position, c.rotation, c.scale, c.tint)] else [])
  }

  /** The texture paths the calls draw. */
  function Paths(calls: seq<SpriteCall>): (paths: set<string>)
    decreases |calls|
  {
    if calls == [] then {} else Paths(calls[..|calls| - 1]) + {calls[|calls| - 1].texture.path}
  }

  lemma {:induction false} PathsOfCalls(calls: seq<SpriteCall>)
    ensures Paths(calls) == set c | c in calls :: c.texture.path
    decreases |calls|
  {
    if calls != [] {
      var front := calls[..|calls| - 1];
      PathsOfCalls(front);
      assert calls == front + [calls[|calls| - 1]];
    }
  }

  /** A frame of `sprite` calls adds exactly the batches for the paths it draws. */
  lemma {:induction false} FrameKeys(m: BatchMap, pipeline: Handle, default: Camera, calls: seq<SpriteCall>)
    ensures SpriteFrame(m, pipeline, default, calls).Keys == m.Keys + Paths(calls)
    decreases |calls|
  {
    if calls != [] {
      FrameKeys(m, pipeline, default, calls[..|calls| - 1]);
    }
  }

  /**
   * Each batch's pending instances after a frame are the ones it already had
   * followed by one instance per call with its path, in call order.
   */
  lemma {:induction false} FrameInstances(m: BatchMap, pipeline: Handle, default: Camera,
                                          calls: seq<SpriteCall>, path: string)
    requires path in SpriteFrame(m, pipeline, default, calls)
    ensures SpriteFrame(m, pipeline, default, calls)[path].instances ==
      (if path in m then m[path].instances else []) + InstancesFor(default, calls, path)
    decreases |calls|
  {
    if calls != [] {
      var front := calls[..|calls| - 1];
      var c := calls[|calls| - 1];
      var before := SpriteFrame(m, pipeline, default, front);
      var inst := SpriteInstance(c.camera, default, c.texture, c.position, c.rotation, c.scale, c.tint);
      var r := Insert(before, c.texture.path, SpriteAttachments(pipeline, c.texture), inst);
      assert SpriteFrame(m, pipeline, default, calls) == r;
      var added := if c.texture.path == path then [inst] else [];
      assert InstancesFor(default, calls, path) == InstancesFor(default, front, path) + added;
      if path in before {
        FrameInstances(m, pipeline, default, front, path);
        assert r[path].instances == before[path].instances + added;
      } else {
        FrameKeys(m, pipeline, default, front);
        InstancesForAbsent(default, front, path);
        assert path !in m && path == c.texture.path;
      }
    }
  }

  lemma {:induction false} InstancesForAbsent(default: Camera, calls: seq<SpriteCall>, path: string)
    requires path !in Paths(calls)
    ensures InstancesFor(default, calls, path) == []
    decreases |calls|
  {
    if calls != [] {
      InstancesForAbsent(default, calls[..|calls| - 1], path);
    }
  }

  /**
   * A batch created during the frame is bound with the attachments of the
   * FIRST call with its path; the textures of later calls are not looked at.
   */
  lemma {:induction false} FrameFirstAttachments(m: BatchMap, pipeline: Handle, default: Camera,
                                                 calls: seq<SpriteCall>, i: nat)
    requires i < |calls| && calls[i].texture.path !in m
    requires forall j :: 0 <= j < i ==> calls[j].texture.path != calls[i].texture.path
    ensures calls[i].texture.path in SpriteFrame(m, pipeline, default, calls)
    ensures SpriteFrame(m, pipeline, default, calls)[calls[i].texture.path].attachments ==
      SpriteAttachments(pipeline, calls[i].texture)
    decreases |calls|
  {
    var front := calls[..|calls| - 1];
    var c := calls[|calls| - 1];
    var before := SpriteFrame(m, pipeline, default, front);
    var inst := SpriteInstance(c.camera, default, c.texture, c.position, c.rotation, c.scale, c.tint);
    var r := Insert(before, c.texture.path, SpriteAttachments(pipeline, c.texture), inst);
    assert SpriteFrame(m, pipeline, default, calls) == r;
    var path := calls[i].texture.path;
    if i < |front| {
      assert path in r && r[path].attachments == before[path].attachments by {
        assert front[i] == calls[i];
        FrameFirstAttachments(m, pipeline, default, front, i);
      }
      assert before[path].attachments == SpriteAttachments(pipeline, calls[i].texture) by {
        assert front[i] == calls[i];
        FrameFirstAttachments(m, pipeline, default, front, i);
      }
    } else {
      assert r[path] == NewBatch(path, SpriteAttachments(pipeline, c.texture), [inst]) by {
        FrameAbsent(m, pipeline, default, front, path);
      }
    }
  }

  /** A path no call draws and no batch has yet gets no batch. */
  lemma {:induction false} FrameAbsent(m: BatchMap, pipeline: Handle, default: Camera,
                                       calls: seq<SpriteCall>, path: string)
    requires path !in m && forall j :: 0 <= j < |calls| ==> calls[j].texture.path != path
    ensures path !in SpriteFrame(m, pipeline, default, calls)
    decreases |calls|
  {
    if calls != [] {
      FrameAbsent(m, pipeline, default, calls[..|calls| - 1], path);
    }
  }

  /**
   * A batch that already exists keeps its attachments through any frame of
   * `sprite` calls: the attachments of later calls with its path are ignored.
   */
  lemma {:induction false} FrameKeepsAttachments(m: BatchMap, pipeline: Handle, default: Camera,
                                                 calls: seq<SpriteCall>, path: string)
    requires path in m
    ensures path in SpriteFrame(m, pipeline, default, calls)
    ensures SpriteFrame(m, pipeline, default, calls)[path].attachments == m[path].attachments
    decreases |calls|
  {
    if calls != [] {
      FrameKeepsAttachments(m, pipeline, default, calls[..|calls| - 1], path);
    }
  }

  /**
   * Grouping: after one frame of `sprite` calls on an empty batcher there is
   * one batch per distinct texture path, holding the instances of the calls
   * with that path in call order, bound with the attachments of the first
   * such call.
   */
  lemma OneBatchPerPath(pipeline: Handle, default: Camera, calls: seq<SpriteCall>)
    ensures var r := SpriteFrame(map[], pipeline, default, calls);
      && r.Keys == (set c | c in calls :: c.texture.path)
      && (forall p :: p in r ==> r[p].instances == InstancesFor(default, calls, p) && r[p].count == |r[p].instances|)
      && (forall i :: 0 <= i < |calls| && (forall j :: 0 <= j < i ==> calls[j].texture.path != calls[i].texture.path) ==>
            r[calls[i].texture.path].attachments == SpriteAttachments(pipeline, calls[i].texture))
  {
    var r := SpriteFrame(map[], pipeline, default, calls);
    FrameKeys(map[], pipeline, default, calls);
    PathsOfCalls(calls);
    forall p | p in r
      ensures r[p].instances == InstancesFor(default, calls, p)
    {
      FrameInstances(map[], pipeline, default, calls, p);
    }
    forall i | 0 <= i < |calls| && (forall j :: 0 <= j < i ==> calls[j].texture.path != calls[i].texture.path)
      ensures r[calls[i].texture.path].attachments == SpriteAttachments(pipeline, calls[i].texture)
    {
      FrameFirstAttachments(map[], pipeline, default, calls, i);
    }
  }

  /**
   * The bookkeeping of a walk over `keys`: `order` lists, without repeats,
   * exactly the keys already visited, and `todo` holds the rest.
   */
  ghost predicate Visits(order: seq<string>, todo: set<string>, keys: set<string>) {
    && todo <= keys
    && (forall k :: k in order <==> k in keys && k !in todo)
    && (forall i, j :: 0 <= i < j < |order| ==> order[i] != order[j])
    && |order| + |todo| == |keys|
    && (forall i :: 0 <= i < |order| ==> order[i] in keys)
  }

  lemma VisitsEnds(keys: set<string>)
    ensures Visits([], keys, keys)
    ensures forall order :: Visits(order, {}, keys) ==> |order| == |keys| && (set k | k in order) == keys
  {
  }

  lemma VisitsStep(order: seq<string>, todo: set<string>, keys: set<string>, id: string)
    requires Visits(order, todo, keys) && id in todo
    ensures Visits(order + [id], todo - {id}, keys)
  {
  }

  /**
   * One turn of the submit loop: flush the batch under `id` and record the
   * calls that draw it, if it had anything to draw.
   */
  method SubmitBatch(batcher: Batcher, id: string, viewport: Viewport, events: seq<PassEvent>) returns (out: seq<PassEvent>)
    requires batcher.Valid() && id in batcher.batches
    modifies batcher.batches[id]
    ensures batcher.Valid() && batcher.batches == old(batcher.batches)
    ensures batcher.Snapshot() == old(batcher.Snapshot())[id := Flush(old(batcher.Snapshot())[id], viewport).batch]
    ensures out == events + BatchEvents(old(batcher.Snapshot())[id].batchLabel, old(batcher.Snapshot())[id].attachments, old(batcher.Snapshot())[id].count)
  {
    ghost var before := batcher.Snapshot()[id];
    var count := batcher.WriteBatch(id, viewport);
    var batch := batcher.batches[id];
    assert batch.batchLabel == before.batchLabel && batch.attachments == before.attachments;
    out := RecordBatch(events, batch.batchLabel, batch.attachments, count);
  }

  /** The renderer's front end. */
  class Draw {
    /** `builtins.pipelines.sprite.pipeline` */
    const pipeline: Handle
    const defaultCamera: Camera
    var currentCamera: Option<Camera>
    const batcher: Batcher

    ghost predicate Valid()
      reads this, batcher, batcher.batches.Values
    {
      batcher.Valid()
    }

    /** `Draw::new`: no batches, no camera override, the default camera. */
    constructor (pipeline: Handle)
      ensures Valid()
      ensures this.pipeline == pipeline && defaultCamera == DEFAULT_CAMERA && currentCamera == None
      ensures fresh(batcher) && batcher.Snapshot() == map[]
    {
      this.pipeline := pipeline;
      defaultCamera := DEFAULT_CAMERA;
      currentCamera := None;
      batcher := new Batcher();
    }

    /** `Draw::set_camera` */
    method SetCamera(camera: Option<Camera>)
      requires Valid()
      modifies this
      ensures Valid()
      ensures currentCamera == camera
      ensures batcher.Snapshot() == old(batcher.Snapshot())
    {
      currentCamera := camera;
    }

    /** `Draw::sprite`: file one instance under the texture's path. */
    method Sprite(texture: Texture, position: Vec2, rotation: Option<F32>, scale: Option<Vec2>, tint: Option<Color>)
      requires Valid()
      modifies batcher, batcher.batches.Values
      ensures Valid()
      ensures batcher.Snapshot() == Insert(old(batcher.Snapshot()), texture.path, SpriteAttachments(pipeline, texture),
                                           SpriteInstance(currentCamera, defaultCamera, texture, position, rotation, scale, tint))
      ensures fresh(batcher.batches.Values - old(batcher.batches.Values))
    {
      batcher.Add(texture.path, [Pipeline(pipeline), Attachment.Texture(texture.binding)],
                  DrawInstance(currentCamera.GetOr(defaultCamera),
                               ModelMatrix(position, rotation.GetOr(ZERO), texture.size, scale.GetOr(VEC2_ONE)),
                               tint.GetOr(WHITE)));
    }

    /**
     * The loop of `Draw::submit`: flush every batch in map order, recording
     * the calls for those that returned a nonzero count. `order` is the order
     * the map happened to be visited in.
     */
    method DrawBatches(viewport: Viewport) returns (events: seq<PassEvent>, ghost order: seq<string>)
      requires Valid()
      modifies batcher.batches.Values
      ensures Valid() && batcher.batches == old(batcher.batches)
      ensures |order| == |old(batcher.batches)| && (set k | k in order) == old(batcher.batches).Keys
      ensures forall i, j :: 0 <= i < j < |order| ==> order[i] != order[j]
      ensures forall i :: 0 <= i < |order| ==> order[i] in old(batcher.Snapshot())
      ensures events == Trace(old(batcher.Snapshot()), order)
      ensures batcher.Snapshot() == FlushAll(old(batcher.Snapshot()), viewport)
    {
      ghost var before := batcher.Snapshot();
      FlushedExceptEnds(before, viewport);
      VisitsEnds(before.Keys);
      events := [];
      order := [];
      var todo := batcher.batches.Keys;
      while todo != {}
        invariant batcher.Valid() && batcher.batches == old(batcher.batches)
        invariant batcher.Snapshot() == FlushedExcept(before, todo, viewport)
        invariant Visits(order, todo, before.Keys)
        invariant events == Trace(before, order)
        decreases |todo|
      {
        var id :| id in todo;
        FlushedExceptStep(before, todo, id, viewport);
        events := SubmitBatch(batcher, id, viewport, events);
        TraceStep(before, order, id);
        VisitsStep(order, todo, before.Keys, id);
        order := order + [id];
        todo := todo - {id};
      }
    }

    /**
     * `Draw::submit`: bind the quad, flush and draw every batch, then clean
     * up once. `order` is the order the map happened to be visited in.
     */
    method Submit(viewport: Viewport) returns (events: seq<PassEvent>, ghost order: seq<string>)
      requires Valid()
      modifies batcher, batcher.batches.Values
      ensures Valid()
      ensures |order| == |old(batcher.batches)| && (set k | k in order) == old(batcher.batches).Keys
      ensures forall i, j :: 0 <= i < j < |order| ==> order[i] != order[j]
      ensures events == QUAD_EVENTS + Trace(old(batcher.Snapshot()), order)
      ensures batcher.Snapshot() == Submitted(old(batcher.Snapshot()), viewport)
      ensures batcher.batches.Values <= old(batcher.batches.Values)
    {
      events := QUAD_EVENTS;
      var drawn;
      drawn, order := DrawBatches(viewport);
      events := events + drawn;
      batcher.Cleanup();
    }
  }

  /**
   * A first frame end to end: a new renderer, one `sprite` call, one
   * `submit`. The pass binds the quad, the sprite pipeline and the texture,
   * sets the batch's instance buffer and draws one instance of the quad; the
   * batch survives with its countdown at `LIFETIME`.
   */
  method FirstFrame(pipeline: Handle, texture: Texture, position: Vec2, viewport: Viewport)
    returns (draw: Draw, events: seq<PassEvent>)
    ensures draw.Valid() && draw.batcher.Snapshot().Keys == {texture.path}
    ensures draw.batcher.Snapshot()[texture.path].lifetime == LIFETIME
    ensures events == QUAD_EVENTS + [SetPipeline(pipeline), SetBindGroup(0, texture.binding),
                                     SetVertexBuffer(1, InstanceBuffer(texture.path)), DrawIndexed(0, NUM_INDICES, 0, 0, 1)]
  {
    draw := new Draw(pipeline);
    draw.Sprite(texture, position, None, None, None);
    ghost var before := draw.batcher.Snapshot();
    assert before == map[texture.path := NewBatch(texture.path, SpriteAttachments(pipeline, texture), [before[texture.path].instances[0]])];
    ghost var order;
    events, order := draw.Submit(viewport);
    assert order == [texture.path] by {
      assert order[0] in (set k | k in order);
    }
    assert Trace(before, order) == Trace(before, []) + BatchEvents(texture.path, SpriteAttachments(pipeline, texture), 1) by {
      assert order[..0] == [];
    }
    SubmitSurvivors(before, viewport, texture.path);
  }

  /**
   * Two textures with the same path (for instance the same relative path
   * loaded under two different asset roots), drawn when no batch for that
   * path exists yet, land in ONE batch, which keeps the first texture's bind
   * group: the second texture is drawn with the first one's image. (When a
   * batch already exists, both are drawn with the bind group of the texture
   * that created it: FrameKeepsAttachments.)
   */
  lemma SamePathSharesBatch(m: BatchMap, pipeline: Handle, default: Camera,
                            first: SpriteCall, second: SpriteCall)
    requires first.texture.path == second.texture.path && first.texture.path !in m
    ensures var r := SpriteFrame(m, pipeline, default, [first, second]);
      && r.Keys == m.Keys + {first.texture.path}
      && r[first.texture.path].count == 2
      && r[first.texture.path].attachments == [Pipeline(pipeline), Attachment.Texture(first.texture.binding)]
  {
    var path := first.texture.path;
    var s0 := SpriteFrame(m, pipeline, default, []);
    assert [first][..0] == [];
    var s1 := SpriteFrame(m, pipeline, default, [first]);
    assert s1 == Insert(s0, path, SpriteAttachments(pipeline, first.texture),
                        SpriteInstance(first.camera, default, first.texture, first.position, first.rotation, first.scale, first.tint));
    assert [first, second][..1] == [first];
    var s2 := SpriteFrame(m, pipeline, default, [first, second]);
    assert s2 == Insert(s1, path, SpriteAttachments(pipeline, second.texture),
                        SpriteInstance(second.camera, default, second.texture, second.position, second.rotation, second.scale, second.tint));
  }
}

=== FILE: input.dfy ===
/**
 * The keyboard and mouse tracker (src/input/mod.rs). Window events overwrite
 * the current state of a key or button; once per frame `tick` copies the
 * current state into the previous one; queries compare the two to report
 * edges.
 *
 * Keys and buttons are named by their debug names (`ArrowUp`, `Left`), the
 * strings the source builds with `format!("{:?}")`. Positions and scroll
 * amounts are stored values only.
 */
module Input {
  import opened Common

  datatype ElementState = Pressed | Released

  datatype PhysicalKey = Code(name: string) | Unidentified

  datatype KeyEvent = KeyEvent(physicalKey: PhysicalKey, state: ElementState)

  /** A wheel movement; a pixel delta arrives already narrowed to `f32`. */
  datatype MouseScrollDelta = LineDelta(x: F32, y: F32) | PixelDelta(delta: Vec2)

  /** `map.get(name).map(|x| *x).unwrap_or(false)`: a name never seen reads as up. */
  function IsDown(m: map<string, bool>, name: string): (down: bool)
    ensures down ==> name in m
    ensures name in m ==> down == m[name]
  {
    name in m && m[name]
  }

  /** The key map after one keyboard event. */
  function KeyMapAfter(keys: map<string, bool>, event: KeyEvent): (r: map<string, bool>)
    ensures event.physicalKey.Unidentified? ==> r == keys
    ensures event.physicalKey.Code? ==>
      r.Keys == keys.Keys + {event.physicalKey.name} &&
      IsDown(r, event.physicalKey.name) == (event.state == Pressed)
    ensures forall name :: (event.physicalKey.Code? ==> name != event.physicalKey.name) ==> IsDown(r, name) == IsDown(keys, name)
  {
    match event.physicalKey
    case Code(name) => keys[name := event.state == Pressed]
    case Unidentified => keys
  }

  /** The key map after a run of keyboard events, in arrival order. */
  function KeyMapAfterAll(keys: map<string, bool>, events: seq<KeyEvent>): map<string, bool>
    decreases |events|
  {
    if events == [] then keys else KeyMapAfterAll(KeyMapAfter(keys, events[0]), events[1..])
  }

  /** Whether an event is about the key `name`. */
  predicate Concerns(event: KeyEvent, name: string) {
    event.physicalKey == Code(name)
  }

  /** Events about other keys leave a key as it was. */
  lemma {:induction false} UntouchedKey(keys: map<string, bool>, events: seq<KeyEvent>, name: string)
    requires forall i :: 0 <= i < |events| ==> !Concerns(events[i], name)
    ensures IsDown(KeyMapAfterAll(keys, events), name) == IsDown(keys, name)
    decreases |events|
  {
    if events != [] {
      assert !Concerns(events[0], name);
      UntouchedKey(KeyMapAfter(keys, events[0]), events[1..], name);
    }
  }

  /**
   * Within a frame the key map only remembers the LAST event for each key:
   * if `events[i]` is the last event about a key, the key is down afterwards
   * exactly when that event was a press, whatever came before it.
   */
  lemma {:induction false} LastEventWins(keys: map<string, bool>, events: seq<KeyEvent>, name: string, i: nat)
    requires i < |events| && Concerns(events[i], name)
    requires forall j :: i < j < |events| ==> !Concerns(events[j], name)
    ensures IsDown(KeyMapAfterAll(keys, events), name) == (events[i].state == Pressed)
    decreases |events|
  {
    var next := KeyMapAfter(keys, events[0]);
    if i == 0 {
      UntouchedKey(next, events[1..], name);
    } else {
      assert Concerns(events[1..][i - 1], name);
      LastEventWins(next, events[1..], name, i - 1);
    }
  }

  class Input {
    var prevKeys: map<string, bool>
    var keys: map<string, bool>
    var prevMouse: map<string, bool>
    var mouse: map<string, bool>
    var mousePos: Vec2
    var mouseScroll: Vec2

    /** `Input::new`: nothing held, cursor and scroll at zero. */
    constructor ()
      ensures prevKeys == keys == prevMouse == mouse == map[]
      ensures mousePos == VEC2_ZERO && mouseScroll == VEC2_ZERO
    {
      prevKeys := map[];
      keys := map[];
      prevMouse := map[];
      mouse := map[];
      mousePos := VEC2_ZERO;
      mouseScroll := VEC2_ZERO;
    }

    /** `Input::tick`: this frame's state becomes the previous frame's; scroll is cleared. */
    method Tick()
      modifies this
      ensures prevKeys == keys == old(keys) && prevMouse == mouse == old(mouse)
      ensures mouseScroll == VEC2_ZERO && mousePos == old(mousePos)
    {
      prevKeys := keys;
      prevMouse := mouse;
      mouseScroll := VEC2_ZERO;
    }

    /** `Input::key_event`: only the key map changes, and only for an identified key. */
    method KeyEvent(event: KeyEvent)
      modifies this
      ensures keys == KeyMapAfter(old(keys), event)
      ensures prevKeys == old(prevKeys) && prevMouse == old(prevMouse) && mouse == old(mouse)
      ensures mousePos == old(mousePos) && mouseScroll == old(mouseScroll)
    {
      match event.physicalKey {
        case Code(key) =>
          match event.state {
            case Pressed => keys := keys[key := true];
            case Released => keys := keys[key := false];
          }
        case Unidentified =>
      }
    }

    /** `Input::mouse_motion_event`: only the cursor position changes. */
    method MouseMotionEvent(position: Vec2)
      modifies this
      ensures mousePos == position
      ensures prevKeys == old(prevKeys) && keys == old(keys) && prevMouse == old(prevMouse) && mouse == old(mouse)
      ensures mouseScroll == old(mouseScroll)
    {
      mousePos := position;
    }

    /** `Input::click_event`: only the button map changes. */
    method ClickEvent(state: ElementState, button: string)
      modifies this
      ensures mouse == old(mouse)[button := state == Pressed]
      ensures prevKeys == old(prevKeys) && keys == old(keys) && prevMouse == old(prevMouse)
      ensures mousePos == old(mousePos) && mouseScroll == old(mouseScroll)
    {
      match state {
        case Pressed => mouse := mouse[button := true];
        case Released => mouse := mouse[button := false];
      }
    }

    /** `Input::scroll_event`: the scroll amount is replaced, not accumulated. */
    method ScrollEvent(delta: MouseScrollDelta)
      modifies this
      ensures mouseScroll == (match delta case LineDelta(x, y) => Vec2(x, y) case PixelDelta(v) => v)
      ensures prevKeys == old(prevKeys) && keys == old(keys) && prevMouse == old(prevMouse) && mouse == old(mouse)
      ensures mousePos == old(mousePos)
    {
      match delta {
        case LineDelta(x, y) => mouseScroll := Vec2(x, y);
        case PixelDelta(v) => mouseScroll := v;
      }
    }

    /** `Input::key_down`: reads the current key map only. */
    function KeyDown(code: string): (down: bool)
      reads this
      ensures down <==> code in keys && keys[code]
    {
      IsDown(keys, code)
    }

    /** `Input::key_pressed`: down now, not down at the last tick. */
    function KeyPressed(code: string): (pressed: bool)
      reads this
      ensures pressed <==> KeyDown(code) && !IsDown(prevKeys, code)
      ensures pressed ==> !KeyReleased(code)
    {
      var previous := IsDown(prevKeys, code);
      var current := IsDown(keys, code);
      current && !previous
    }

    /** `Input::key_released`: not down now, down at the last tick. */
    function KeyReleased(code: string): (released: bool)
      reads this
      ensures released <==> !KeyDown(code) && IsDown(prevKeys, code)
    {
      var previous := IsDown(prevKeys, code);
      var current := IsDown(keys, code);
      !current && previous
    }

    /** `Input::mouse_pos` */
    function MousePos(): (p: Vec2)
      reads this
      ensures p == mousePos
    {
      mousePos
    }

    /** `Input::mouse_down`: reads the current button map only. */
    function MouseDown(button: string): (down: bool)
      reads this
      ensures down <==> button in mouse && mouse[button]
    {
      IsDown(mouse, button)
    }

    /** `Input::mouse_pressed` */
    function MousePressed(button: string): (pressed: bool)
      reads this
      ensures pressed <==> MouseDown(button) && !IsDown(prevMouse, button)
      ensures pressed ==> !MouseReleased(button)
    {
      var previous := IsDown(prevMouse, button);
      var current := IsDown(mouse, button);
      current && !previous
    }

    /** `Input::mouse_released` */
    function MouseReleased(button: string): (released: bool)
      reads this
      ensures released <==> !MouseDown(button) && IsDown(prevMouse, button)
    {
      var previous := IsDown(prevMouse, button);
      var current := IsDown(mouse, button);
      !current && previous
    }

    /** `Input::scroll` */
    function Scroll(): (s: Vec2)
      reads this
      ensures s == mouseScroll
    {
      mouseScroll
    }
  }

  /** A fresh tracker reports nothing held and no edges. */
  lemma FreshInputIsQuiet(input: Input, name: string)
    requires input.prevKeys == input.keys == input.prevMouse == input.mouse == map[]
    ensures !input.KeyDown(name) && !input.KeyPressed(name) && !input.KeyReleased(name)
    ensures !input.MouseDown(name) && !input.MousePressed(name) && !input.MouseReleased(name)
  {
  }

  /** Right after `tick` no key and no button shows an edge. */
  lemma NoEdgesAfterTick(input: Input, name: string)
    requires input.prevKeys == input.keys && input.prevMouse == input.mouse
    ensures !input.KeyPressed(name) && !input.KeyReleased(name)
    ensures !input.MousePressed(name) && !input.MouseReleased(name)
  {
  }

  /**
   * A key that was up at the last tick and is pressed and released again
   * before the next one leaves no trace: afterwards it reads as not down,
   * not pressed (down and not previously down) and not released (not down
   * and previously down).
   */
  lemma TapWithinOneFrameIsMissed(prevKeys: map<string, bool>, keys: map<string, bool>, name: string)
    requires !IsDown(prevKeys, name)
    ensures var after := KeyMapAfterAll(keys, [KeyEvent(Code(name), Pressed), KeyEvent(Code(name), Released)]);
            && !IsDown(after, name)
            && !(IsDown(after, name) && !IsDown(prevKeys, name))
            && !(!IsDown(after, name) && IsDown(prevKeys, name))
  {
    var events := [KeyEvent(Code(name), Pressed), KeyEvent(Code(name), Released)];
    LastEventWins(keys, events, name, 1);
  }

  /**
   * The other side: a key that was down at the last tick and is released,
   * pressed again (a key repeat is not filtered) and released before the
   * next one reads as released.
   */
  lemma HeldKeyRetapReadsReleased(prevKeys: map<string, bool>, keys: map<string, bool>, name: string)
    requires IsDown(prevKeys, name)
    ensures var after := KeyMapAfterAll(keys, [KeyEvent(Code(name), Released), KeyEvent(Code(name), Pressed),
                                               KeyEvent(Code(name), Released)]);
            && !IsDown(after, name)
            && (!IsDown(after, name) && IsDown(prevKeys, name))
  {
    var events := [KeyEvent(Code(name), Released), KeyEvent(Code(name), Pressed), KeyEvent(Code(name), Released)];
    LastEventWins(keys, events, name, 2);
  }
}

=== FILE: instances.dfy ===
/**
 * Per-sprite draw data and its packed GPU form (src/graphics/draw.rs, lines 11-83).
 *
 * Matrix arithmetic is not modelled: a matrix is kept as the symbolic term
 * that the renderer would evaluate (`camera.matrix(viewport) * model`).
 * Two different terms may evaluate to the same matrix (a camera with an
 * explicit size ignores the viewport, the zoom is clamped), so nothing here
 * relies on terms being distinct.
 */
module Instances {
  import opened Common

  /** `size_of::<f32>()` */
  const F32_BYTES: nat := 4

  /** `size_of::<[f32; n]>()` */
  function FloatsSize(n: nat): nat {
    F32_BYTES * n
  }

  /**
   * `size_of::<RawInstance>()`: a 4x4 `f32` matrix followed by an RGBA `f32`
   * colour; `repr(C)` with only 4-byte fields leaves no padding
   * (RawInstanceLayout shows the two fields fill it exactly).
   */
  const RAW_INSTANCE_SIZE: nat := 80

  datatype VertexFormat = Float32x4

  function FormatSize(f: VertexFormat): nat {
    match f
    case Float32x4 => FloatsSize(4)
  }

  datatype StepMode = PerVertex | PerInstance

  datatype VertexAttribute = VertexAttribute(offset: nat, shaderLocation: nat, format: VertexFormat)

  datatype VertexBufferLayout = VertexBufferLayout(arrayStride: nat, stepMode: StepMode, attributes: seq<VertexAttribute>)

  /**
   * `RawInstance::buffer_layout`: the instance stream read by the sprite shader.
   * The four matrix columns and the colour sit at shader locations 2 to 6; the
   * attributes tile the 80-byte record with no gap and no overlap.
   */
  function RawInstanceLayout(): (l: VertexBufferLayout)
    ensures l.arrayStride == RAW_INSTANCE_SIZE == FloatsSize(16) + FloatsSize(4)
    ensures l.stepMode == PerInstance
    ensures |l.attributes| == 5
    ensures forall i :: 0 <= i < |l.attributes| ==>
      l.attributes[i].shaderLocation == 2 + i && l.attributes[i].format == Float32x4
    ensures l.attributes[0].offset == 0
    ensures forall i :: 0 < i < |l.attributes| ==>
      l.attributes[i].offset == l.attributes[i - 1].offset + FormatSize(l.attributes[i - 1].format)
    ensures l.attributes[4].offset + FormatSize(l.attributes[4].format) == l.arrayStride
  {
    VertexBufferLayout(
      FloatsSize(16) + FloatsSize(4),
      PerInstance,
      [ VertexAttribute(0, 2, Float32x4),
        VertexAttribute(FloatsSize(4), 3, Float32x4),
        VertexAttribute(FloatsSize(8), 4, Float32x4),
        VertexAttribute(FloatsSize(12), 5, Float32x4),
        VertexAttribute(FloatsSize(16), 6, Float32x4) ])
  }

  /**
   * A camera as the renderer reads it when packing (src/graphics/camera.rs):
   * an optional explicit size, a position, a rotation and a zoom factor.
   */
  datatype Camera = Camera(size: Option<Vec2>, position: Vec2, rotation: F32, zoom: F32)

  /** `Camera::new`: no explicit size, at the origin, unrotated, zoom 1. */
  const DEFAULT_CAMERA: Camera := Camera(None, VEC2_ZERO, ZERO, ONE)

  /** The surface size in pixels (`video.config.width`, `video.config.height`). */
  datatype Viewport = Viewport(width: nat, height: nat)

  /** A 4x4 matrix as the product expression that would compute it. */
  datatype Mat4 =
    | ModelMatrix(position: Vec2, rotation: F32, size: Extent, scale: Vec2)
      // translate(position) * rotate_z(rotation) * scale(size * scale)
    | CameraMatrix(camera: Camera, viewport: Viewport)
    | Product(lhs: Mat4, rhs: Mat4)

  /** `DrawInstance`: one sprite placement, before packing. */
  datatype DrawInstance = DrawInstance(camera: Camera, model: Mat4, color: Color)

  /** `RawInstance`: the packed 80-byte record uploaded to the instance buffer. */
  datatype RawInstance = RawInstance(matrix: Mat4, color: Color)

  /** `DrawInstance::into_raw`: bake the camera into the model matrix, keep the colour. */
  function IntoRaw(instance: DrawInstance, viewport: Viewport): (r: RawInstance)
    ensures r.matrix == Product(CameraMatrix(instance.camera, viewport), instance.model)
    ensures r.color == instance.color
  {
    RawInstance(Product(CameraMatrix(instance.camera, viewport), instance.model), instance.color)
  }

  /** `DrawAttachment`: something bound before a batch is drawn. */
  datatype Attachment = Pipeline(pipeline: Handle) | Texture(binding: Handle)

  /** The buffers a render pass can be given. */
  datatype Buffer = QuadVertices | QuadIndices | InstanceBuffer(batch: string)

  datatype IndexFormat = Uint16

  /** One call made on the `wgpu::RenderPass`, in the order it was made. */
  datatype PassEvent =
    | SetPipeline(pipeline: Handle)
    | SetBindGroup(index: nat, group: Handle)
    | SetVertexBuffer(slot: nat, buffer: Buffer)
    | SetIndexBuffer(buffer: Buffer, format: IndexFormat)
    | DrawIndexed(indexStart: nat, indexEnd: nat, baseVertex: int, instanceStart: nat, instanceEnd: nat)

  /** `DrawAttachment::attach` */
  function Attach(a: Attachment): (e: PassEvent)
    ensures a.Pipeline? <==> e.SetPipeline?
    ensures a.Pipeline? ==> e == SetPipeline(a.pipeline)
    ensures a.Texture? ==> e == SetBindGroup(0, a.binding)
    ensures !e.DrawIndexed?
  {
    match a
    case Pipeline(p) => SetPipeline(p)
    case Texture(b) => SetBindGroup(0, b)
  }

  /** Attach every attachment, in stored order. */
  function AttachAll(attachments: seq<Attachment>): (events: seq<PassEvent>)
    ensures |events| == |attachments|
    ensures forall i :: 0 <= i < |attachments| ==> events[i] == Attach(attachments[i])
  {
    if attachments == [] then [] else [Attach(attachments[0])] + AttachAll(attachments[1..])
  }

  /** `Quad::NUM_INDICES` (src/graphics/quad.rs, line 11). */
  const NUM_INDICES: nat := 6

  /** `Quad::apply`: the shared quad's vertex and index buffers. */
  const QUAD_EVENTS: seq<PassEvent> := [SetVertexBuffer(0, QuadVertices), SetIndexBuffer(QuadIndices, Uint16)]
}
